=== FILE: README.md ===
# NAISPD request rules, verified

NAISPD is a record-management web application for a social-assistance
programme. It registers attended persons (*atendidos*), lists and searches
them, and edits their Individual Assistance Plan (PIA). Nearly all of the
application is HTTP routing, SQL and template rendering. This project models
the pure rules inside its route handlers, in Dafny, and proves what they do:

- `Intake`: the `/criar` validator. Six required fields are checked in a
  fixed order: presence, phone shape, e-mail shape, birth-date shape, RG
  digits, then CPF. The first failing check decides the 400 response.
- `AgeBuckets`: the bucket table `intervalosIdade` / `getAgeRange`. It maps a
  bucket key to an inclusive age range and uses `[0, Infinity]` for any other
  key. `Infinity` is written as `None`.
- `BuscarRequest`: the request-field checks of `/buscar` in `index.js`. No
  request body gets past them.
- `Ages` and `PeopleSearch`: the in-memory `/buscar` filter of
  `NAISPD/index.js`. It combines six per-person criteria, and age is the
  current year minus the birth year. The route as written fails on an
  inherited bucket name and on a record that lacks a text field being
  searched.
- `Pagination`: the page slice of the listing route, including how
  `Array.prototype.slice` treats negative indices.
- `EditGuards`: the two `/alterar` id guards. One uses `parseInt` and requires
  a value above zero. The other rejects only an absent or blank id.
- `JsText`, `JsNumber` and `JsArray`: the ECMAScript pieces these rules rely on:
  - the `\s` class, which is the WhiteSpace and LineTerminator code points;
  - `toLowerCase`, `includes` and `trim`;
  - `parseInt` with radix 10;
  - `Array.prototype.filter`.
- `Results`: `Option` and `Result`.

The current year is a parameter, so the age computation is pure. `/criar`
calls a CPF check `validateCPF` that `index.js` neither defines nor imports.
`Intake.RespondAsWritten` models what that call does: it raises a
ReferenceError, which ends in a 500. `Intake.Validate` and `Intake.Respond`
model the route as it was meant to work. They take the intended CPF check as
a parameter `validCpf`.

## Model

| member | source | states |
|---|---|---|
| `Intake.Validate` | index.js:178-204 | A `Failure(e)` means check `e` fails and every check ranked before it passes. The form is accepted iff all six checks pass, and then the record holds exactly the six submitted values. |
| `Intake.AcceptedFieldsMatchPatterns` | index.js:178-210 | The intended route accepts a form only when the phone, e-mail and date match their regular expressions, the RG has at least 7 digits, and the CPF check holds. |
| `Intake.PhoneShapeIffPattern` | index.js:182-185 | The phone test accepts a string iff it is `(` + 2 digits + `) ` + 5 digits + `-` + 4 digits. |
| `Intake.EmailShapeIffPattern` | index.js:187-190 | The e-mail test accepts a string iff it has the form local `@` host `.` top, with each of the three parts non-empty and free of whitespace and `@`. |
| `Intake.DateShapeIffPattern` | index.js:192-195 | The birth-date test accepts a string iff it is 4 digits `-` 2 digits `-` 2 digits. |
| `Intake.DateShapeIgnoresCalendar` | index.js:192-195 | The date test checks shape only, so "2023-99-99" passes. |
| `Intake.RespondAsWritten` | index.js:178-216 | The route as written never inserts. It answers 500 iff the first five checks pass, because the undefined `validateCPF` throws. Otherwise it answers 400 with the message of the first failing check. |
| `Intake.Respond` | index.js:178-212 | With the intended CPF check, the route inserts iff all six checks pass, and the row holds the submitted values. Otherwise it answers 400 with the message of the first failing check. It never answers 500 before the insert. |
| `Intake.AsWrittenNeverInserts` | index.js:202-216 | Every form the intended route would insert gets a 500 from the route as written. A form rejected by a check other than the CPF check gets the same 400 from both. |
| `Intake.WellFormedFormGets500` | index.js:202-216 | A concrete well-formed form gets a 500 from the route as written and is inserted by the intended route. |
| `AgeBuckets.OwnBucket` | index.js:162-168 | The table has an entry for exactly the five bucket keys. |
| `AgeBuckets.RangeFor` | index.js:161-171 | Every selected range starts at 0 or above and is non-empty. A key outside the table gives `[0, Infinity]`. A key in the table gives its own entry. |
| `AgeBuckets.BucketsMatchTheirLabels` | index.js:162-168 | "10-18", "18-30", "18-60" and "60+" each cover exactly the ages their label names. "all" has no such reading and is `[0, 100]`. |
| `AgeBuckets.DefaultIsWidest` | index.js:163-170 | Every bucket lies inside the default range. "all" is strictly narrower than an unknown key, because age 101 is only in the latter. |
| `AgeBuckets.LookupAsWritten` | NAISPD/index.js:49-57 | The lookup as written fails (a TypeError) iff the key is an inherited `Object.prototype` member name. |
| `AgeBuckets.AsWrittenAgreesOffPrototype` | NAISPD/index.js:57 | Outside the inherited names, the lookup as written selects the same range as the own-key reading. |
| `AgeBuckets.InheritedNameThrows` | NAISPD/index.js:57 | `idade=constructor` throws where the default range was meant. |
| `BuscarRequest.InvalidNames` | index.js:119-120 | The reported names are the body's field names outside the allowed list. They keep body order and appear as often as in the body. |
| `BuscarRequest.Check` | index.js:110-124 | The first check rejects iff `idade` or `nome_buscar` is missing or empty. The second rejects iff the bucket is not one of the five keys. A third-check rejection lists exactly the disallowed names, and there is at least one. A body that passes the first two checks passes iff every field name is allowed. |
| `BuscarRequest.NoBodyPasses` | index.js:110-124 | Every request body is rejected. One that gets past the first two checks is rejected by the third, which reports both `idade` and `nome_buscar`. |
| `BuscarRequest.RequiredFieldsAreReportedInvalid` | index.js:119-123 | `nome_buscar=Ana&idade=all` is rejected with both names listed as invalid. |
| `BuscarRequest.FixedAcceptsSearchForm` | index.js:110-124 | If the two required names are added to the allowed list, a body with a name, a valid bucket and only search-form fields is accepted. |
| `BuscarRequest.FixedAcceptsRequiredFields` | index.js:119-123 | With the fixed list, `nome_buscar=Ana&idade=all` yields the search terms ("Ana", "all"). |
| `Ages.AgeInYearVersusCompletedYears` | NAISPD/index.js:60-63 | The year difference equals the completed years once the birthday has come, and is one more than that before it. |
| `Ages.AgeIgnoresMonthAndDay` | NAISPD/index.js:60-63 | Two birth dates in the same year give the same age. |
| `JsArray.Select` | NAISPD/index.js:59 | `filter` with any callback returns an order-preserving subsequence of its input. It holds exactly the kept elements, each as often as in the input. |
| `PeopleSearch.Filter` | NAISPD/index.js:59-74 | The result is an order-preserving subsequence of the input, so it is no longer. It holds exactly the people who meet all six criteria, each as often as in the input. |
| `PeopleSearch.Search` | NAISPD/index.js:46-77 | The route fails with a TypeError iff the bucket key is an inherited `Object.prototype` name, or some person has a null or missing text field whose query field is set. Otherwise it returns exactly the people who meet all six criteria, in their original order, each as often as in the input. |
| `PeopleSearch.NoTextCriteriaNeverThrows` | NAISPD/index.js:57-71 | With none of the five text fields set and a non-inherited bucket key, the route returns the filter's result whatever the records hold. |
| `PeopleSearch.CompleteRecordsNeverThrow` | NAISPD/index.js:57-71 | When every record holds all five text fields, the route returns the filter's result for any non-inherited bucket key. |
| `PeopleSearch.UnsetGenderThrows` | NAISPD/index.js:67-71 | A record without a gender, as `/criar` stores it, makes a search with `sexo` set fail. This holds even when the name criterion already rejects that person, because every criterion runs. |
| `PeopleSearch.FilterAppend` | NAISPD/index.js:59-74 | Filtering a concatenation is the concatenation of the filtered parts. |
| `PeopleSearch.FilterMonotone` | NAISPD/index.js:59-74 | A query that admits everyone another query admits returns a result containing the other result, in order. |
| `PeopleSearch.ClearingNameWidens` | NAISPD/index.js:67 | An empty name field never removes anyone from the result. |
| `PeopleSearch.EmptyQueryKeepsReadableAges` | NAISPD/index.js:57-73 | With every field empty, a person is kept iff the birth date can be read and the age is not negative. |
| `PeopleSearch.AgeBoundsInclusive` | NAISPD/index.js:65 | With bucket "10-18", a person matches on age iff 10 <= age <= 18, so both ends are included. |
| `PeopleSearch.KeepIgnoresQueryCase` | NAISPD/index.js:67-71 | Lower-casing the query's text fields does not change who is kept. |
| `PeopleSearch.NameMatchesAnyPart` | NAISPD/index.js:67 | A non-empty query that occurs anywhere inside the name matches. |
| `PeopleSearch.EqualsIsNotSubstring` | NAISPD/index.js:68-71 | The race/responsible/gender test is whole-string equality. "par" does not match "Parda" there, but it does under the substring test. |
| `Pagination.Slice` | NAISPD/index.js:117 | `slice` returns no more elements than the list. Element `i` of the result is element `start' + i` of the list, where `start'` is the start index after the negative-index and clamping rules. |
| `Pagination.Page` | NAISPD/index.js:115-117 | A page holds at most 20 people. For page >= 1 it holds the people from offset `(page-1)*20` onward, in order. It is empty iff the offset is at or past the end. It is full when 20 people remain, and otherwise holds the rest. |
| `Pagination.PagesTileTheList` | NAISPD/index.js:115-117 | Pages 1..n laid end to end are exactly the first `min(20n, length)` people, so no one is skipped or repeated. |
| `Pagination.PersonOnTheirPage` | NAISPD/index.js:115-117 | The person at position `i` is entry `i % 20` of page `i / 20 + 1`. |
| `Pagination.NonPositivePages` | NAISPD/index.js:115-117 | Page 0 is empty. A negative page shows 20 people counted back from the end of the list. |
| `EditGuards.NumericId` | index.js:220-223 | An accepted id is above zero and is the value `parseInt` reads from the text. A rejection means `NaN` or a value not above zero. |
| `EditGuards.NumericIdAcceptsDecimal` | index.js:220-223 | Leading whitespace, then a positive decimal number, then text not starting with a digit is accepted as that number. |
| `EditGuards.NumericIdRejectsNonPositive` | index.js:221-222 | A negative number or zero is rejected. |
| `EditGuards.NumericIdRejectsMissing` | index.js:220-222 | An absent id is rejected. |
| `EditGuards.RawId` | NAISPD/index.js:130-134 | The id is accepted iff it is present and has a non-whitespace character. The accepted id is the raw, untrimmed text. |
| `EditGuards.NumericAcceptanceImpliesRaw` | NAISPD/index.js:132-134 | Every id the first variant accepts, the second accepts too. |
| `EditGuards.RawAcceptsNonNumeric` | NAISPD/index.js:132-134 | The converse fails: "abc" passes the second guard and fails the first. |
| `JsNumber.ParseShow` | index.js:220 | Round trip of `parseInt`: whitespace, an optional sign, the decimal notation of `n`, then text not starting with a digit parses to the signed `n`. |
| `JsNumber.ParsedTextHasDigit` | index.js:220-221 | A text that `parseInt` reads as a number contains a decimal digit. |
| `JsText.IncludesIffOccurs` | NAISPD/index.js:67 | `includes` is true iff the needle occurs at some position of the text. |
| `JsText.LowerIdempotent` | NAISPD/index.js:68 | Lower-casing twice is the same as lower-casing once. |
| `JsText.TrimEmptyIffBlank` | NAISPD/index.js:132 | `s.trim() === ''` iff every character of `s` is whitespace. |

## Findings

| source | as written | input that shows it | evidently intended | confidence | as-written member | corrected member |
|---|---|---|---|---|---|---|
| index.js:202 | `validateCPF` is called but never defined or imported (lines 1-3 require only express, body-parser and pg). The ReferenceError is caught at lines 213-216 and answered with 500 "Erro ao inserir dados.". | the form `Ana`, `(11) 91234-5678`, `ana@exemplo.com`, `2000-01-31`, `1234567`, `52998224725` | a form that passes every check, the CPF check included, is inserted | high, not executed | `Intake.RespondAsWritten` (shown by `Intake.AsWrittenNeverInserts`, `Intake.WellFormedFormGets500`) | `Intake.Respond` with `Intake.Validate` (`Intake.AcceptedFieldsMatchPatterns`) |
| NAISPD/index.js:57 | `intervalosIdade[idade] \|\| [0, Infinity]` also finds the members every object inherits from `Object.prototype`. Each is a truthy non-array, so destructuring it throws a TypeError. | `idade=constructor` (also `toString`, `__proto__`, …) | an unknown key selects the default `[0, Infinity]` | medium, not executed | `AgeBuckets.LookupAsWritten` (shown by `AgeBuckets.InheritedNameThrows`) | `AgeBuckets.RangeFor` (`AgeBuckets.AsWrittenAgreesOffPrototype`, `AgeBuckets.DefaultIsWidest`); the search filter uses it |
| index.js:119-124 | The allowed-field list leaves out the two required fields `nome_buscar` and `idade` | `nome_buscar=Ana&idade=all` is rejected with status 400 | a body with the required fields and a valid bucket is accepted | high, not executed | `BuscarRequest.Validate` (shown by `BuscarRequest.NoBodyPasses`, `BuscarRequest.RequiredFieldsAreReportedInvalid`) | `BuscarRequest.ValidateFixed` (`BuscarRequest.FixedAcceptsSearchForm`, `BuscarRequest.FixedAcceptsRequiredFields`) |

`getAgeRange` in index.js:161-171 has the same lookup, but there it only ever
receives one of the five keys that line 115 has already checked.

## Left out

- The PIA save transaction (index.js:259-427, NAISPD/index.js:154-202) is left out. It is a set of multi-table SQL upserts inside BEGIN/COMMIT/ROLLBACK on a pooled connection, so it is database and concurrency behaviour, not a pure rule.
- All SQL text and database calls are left out: the SQL search of `/buscar` in index.js, the counts, the listings and the inserts. This includes the second variant's `/criar`, which inserts before it checks its fields.
- Intake.Validate: `validateCPF` is never defined in `index.js`, so as written every form that passes the RG check raises a ReferenceError at line 202 and gets a 500 (modelled by `Intake.RespondAsWritten`). `Intake.Validate` instead models the route as meant to work, and its parameter `validCpf` stands for the CPF check it was meant to call. That check's algorithm is not part of this model.
- PeopleSearch.Filter: it is the filter callback alone, and it selects the age range with the corrected `AgeBuckets.RangeFor`. The two TypeErrors of the route as written are modelled by `PeopleSearch.Search`, not by `Filter`. The first is an inherited `Object.prototype` name as `idade` at NAISPD/index.js:57. The second is `toLowerCase` on a null or missing person field at lines 67-71. Both `/criar` inserts leave `responsavel`, `raca`, `deficiencia` and `genero` unset (index.js:207-209, NAISPD/index.js:27-29). For a person without such a field whose query field is set, `Keep` is false.
- The module-level `peopleData` of `NAISPD/index.js` is left out. It is never filled, and it is shadowed by locals in the listing routes. `PeopleSearch.Filter` takes the list as a parameter instead.
- Routing, EJS rendering, body parsing, static files and logging are left out. The message text of each `/criar` rejection is kept in `Intake.Message`, and the 400 status is left out.
- Form values and query parameters are modelled as strings or absent. The body parser and Express's query parser also turn a repeated name into an array, and they can produce objects; those are left out. For `/alterar?id=1&id=2`, `parseInt` at index.js:220 reads the array as "1,2" and accepts 1, and NAISPD/index.js:132 throws a TypeError at `id.trim`. Neither case is modelled.
- BuscarRequest.Check: a body is a list of fields in which a name may repeat, and `Lookup` takes the first one. The body parser turns a repeated name into an array, such as `idade = ['all', 'all']`, which the bucket check at index.js:115 rejects. The model does not cover that case.
- JavaScript `Date` is left out. `new Date(text)` parsing and time-zone effects on `getFullYear` are not modelled. A birth date is the calendar date the getters report, or `None` when JavaScript cannot read it.
- `JsText.LowerChar` lower-cases only ASCII letters and the Latin-1 capitals U+00C0 to U+00DE. `toLowerCase` covers all of Unicode, including mappings that change the length of a string.
- `JsNumber.ParseInt10` returns an unbounded integer. `parseInt` returns a double, which rounds very long numbers. Rounding never changes the sign, so the guard's accept/reject decision is the same.
- `Pagination.Page` takes `page` as an integer. The route computes `page - 1` with JavaScript's number conversion, so strings like "1.5", "1e1" or "0x10" are left out.
- `BuscarRequest.InvalidNames` lists names in body order. `Object.keys` puts integer-like names first, and that reordering affects only the text of the 400 message.

=== FILE: agebuckets.dfy ===
/** The age buckets of the search form: a table from a bucket key to an
    inclusive age range, with a default range for any other key. */
module AgeBuckets {
  import opened Results
  import opened JsText
  import opened JsNumber

  /** An inclusive range of ages; `max == None` is JavaScript's `Infinity`. */
  datatype AgeRange = AgeRange(min: int, max: Option<int>)

  predicate InRange(r: AgeRange, age: int) {
    r.min <= age && (r.max.None? || age <= r.max.value)
  }

  /** The fallback `[0, Infinity]`. */
  const Default := AgeRange(0, None)

  /** The own keys of the bucket table, which are also the values the
      `/buscar` route accepts for `idade`. */
  const BucketKeys: seq<string> := ["all", "10-18", "18-30", "18-60", "60+"]

  /** The properties every plain JavaScript object inherits from
      `Object.prototype`; looking one of them up in the table yields a
      function (or, for `__proto__`, an object), never `undefined`. */
  const InheritedNames: seq<string> := [
    "constructor", "__defineGetter__", "__defineSetter__", "hasOwnProperty",
    "__lookupGetter__", "__lookupSetter__", "isPrototypeOf", "propertyIsEnumerable",
    "toString", "valueOf", "__proto__", "toLocaleString"]

  /** The table's own entries. */
  function OwnBucket(key: string): (r: Option<AgeRange>)
    ensures r.Some? <==> key in BucketKeys
  {
    if key == "all" then Some(AgeRange(0, Some(100)))
    else if key == "10-18" then Some(AgeRange(10, Some(18)))
    else if key == "18-30" then Some(AgeRange(18, Some(30)))
    else if key == "18-60" then Some(AgeRange(18, Some(60)))
    else if key == "60+" then Some(AgeRange(60, None))
    else None
  }

  /** The range `intervalosIdade[idade] || [0, Infinity]` selects, read as
      an own-key lookup with the default for every other key. */
  function RangeFor(key: string): (r: AgeRange)
    ensures 0 <= r.min
    ensures r.max.Some? ==> r.min < r.max.value
    ensures key !in BucketKeys ==> r == Default
    ensures key in BucketKeys ==> OwnBucket(key) == Some(r)
  {
    match OwnBucket(key)
    case Some(r) => r
    case None => Default
  }

  datatype LookupError = NotIterable

  /** The lookup as the code is written: `intervalosIdade[idade]` also
      finds the inherited members of `Object.prototype`; such a value is
      truthy, so `||` keeps it, and destructuring it into
      `[idadeMin, idadeMax]` throws a TypeError. */
  function LookupAsWritten(key: string): (r: Result<AgeRange, LookupError>)
    ensures r.Failure? <==> key in InheritedNames
  {
    if key in BucketKeys then Success(RangeFor(key))
    else if key in InheritedNames then Failure(NotIterable)
    else Success(Default)
  }

  /** A bucket key that reads "A-B" denotes [A, B] and one that reads "A+"
      denotes [A, Infinity]; every other text has no reading. */
  function LabelRange(key: string): Option<AgeRange> {
    var k := DigitPrefixLength(key);
    if k == 0 then None
    else if key[k..] == "+" then Some(AgeRange(DecimalValue(key[..k]), None))
    else if k + 1 < |key| && key[k] == '-' && AllDigits(key[k + 1..]) then
      Some(AgeRange(DecimalValue(key[..k]), Some(DecimalValue(key[k + 1..]))))
    else None
  }

  /** "A-B" reads as [A, B]. */
  lemma LabelOfBounded(a: nat, b: nat)
    ensures LabelRange(Show(a) + ("-" + Show(b))) == Some(AgeRange(a, Some(b)))
  {
    var tail := "-" + Show(b);
    var key := Show(a) + tail;
    var k := |Show(a)|;
    DigitPrefixOfDigits(Show(a), tail);
    assert key[..k] == Show(a);
    assert key[k..] == tail;
    assert key[k] == '-';
    assert key[k..] != "+" by {
      assert key[k..][0] == '-';
    }
    assert key[k + 1..] == Show(b);
    assert k + 1 < |key| && AllDigits(key[k + 1..]);
    DecimalShow(a);
    DecimalShow(b);
  }

  /** "A+" reads as [A, Infinity]. */
  lemma LabelOfOpen(a: nat)
    ensures LabelRange(Show(a) + "+") == Some(AgeRange(a, None))
  {
    var key := Show(a) + "+";
    var k := |Show(a)|;
    DigitPrefixOfDigits(Show(a), "+");
    assert key[..k] == Show(a);
    assert key[k..] == "+";
    DecimalShow(a);
  }

  /** Every bucket except "all" covers exactly the ages its label names;
      "all" has no such reading and stops at 100. */
  lemma BucketsMatchTheirLabels(key: string)
    requires key in BucketKeys
    ensures key != "all" ==> LabelRange(key) == Some(RangeFor(key))
    ensures key == "all" ==> LabelRange(key) == None && RangeFor(key) == AgeRange(0, Some(100))
  {
    if key == "10-18" {
      assert Show(10) == "10" && Show(18) == "18";
      assert key == Show(10) + ("-" + Show(18));
      LabelOfBounded(10, 18);
    } else if key == "18-30" {
      assert Show(18) == "18" && Show(30) == "30";
      assert key == Show(18) + ("-" + Show(30));
      LabelOfBounded(18, 30);
    } else if key == "18-60" {
      assert Show(18) == "18" && Show(60) == "60";
      assert key == Show(18) + ("-" + Show(60));
      LabelOfBounded(18, 60);
    } else if key == "60+" {
      assert Show(60) == "60";
      assert key == Show(60) + "+";
      LabelOfOpen(60);
    } else {
      assert DigitPrefixLength(key) == 0;
    }
  }

  /** Every bucket lies inside the default range, and "all" is strictly
      narrower than an unknown key: age 101 is in the default only. */
  lemma DefaultIsWidest(key: string, age: int)
    ensures InRange(RangeFor(key), age) ==> InRange(Default, age)
    ensures !InRange(RangeFor("all"), 101) && InRange(RangeFor("unknown"), 101)
  {
  }

  /** Off the inherited names the lookup as written selects the same range
      as the own-key reading. */
  lemma AsWrittenAgreesOffPrototype(key: string)
    requires key !in InheritedNames
    ensures LookupAsWritten(key) == Success(RangeFor(key))
  {
  }

  /** A request with `idade=constructor` throws where the default range was
      meant. */
  lemma InheritedNameThrows()
    ensures LookupAsWritten("constructor") == Failure(NotIterable)
    ensures RangeFor("constructor") == Default
  {
    assert "constructor" == InheritedNames[0];
  }
}

=== FILE: ages.dfy ===
/** Age as the search filter computes it: the current year minus the birth
    year, month and day ignored. */
module Ages {

  /** A calendar date as JavaScript's local-time getters report it. */
  datatype Date = Date(year: int, month: int, day: int)

  /** `new Date().getFullYear() - new Date(birth).getFullYear()`. */
  function AgeInYear(currentYear: int, birth: Date): int {
    currentYear - birth.year
  }

  /** `a` is the same day as `b` or earlier. */
  predicate OnOrBefore(a: Date, b: Date) {
    a.year < b.year || (a.year == b.year && (a.month < b.month || (a.month == b.month && a.day <= b.day)))
  }

  /** The `n`-th anniversary of `birth`. */
  function Anniversary(birth: Date, n: int): Date {
    Date(birth.year + n, birth.month, birth.day)
  }

  /** `n` completed years on `today`: the `n`-th anniversary has been reached
      and the next one has not. */
  predicate CompletedYears(today: Date, birth: Date, n: int) {
    OnOrBefore(Anniversary(birth, n), today) && !OnOrBefore(Anniversary(birth, n + 1), today)
  }

  /** The year difference is the number of completed years once this year's
      birthday has come, and one more than that before it. */
  lemma AgeInYearVersusCompletedYears(today: Date, birth: Date, n: int)
    requires CompletedYears(today, birth, n)
    ensures AgeInYear(today.year, birth) == n || AgeInYear(today.year, birth) == n + 1
    ensures AgeInYear(today.year, birth) == n <==> OnOrBefore(Anniversary(birth, AgeInYear(today.year, birth)), today)
  {
  }

  /** Two people born in the same year have the same age, whatever the month
      and day. */
  lemma AgeIgnoresMonthAndDay(currentYear: int, b1: Date, b2: Date)
    requires b1.year == b2.year
    ensures AgeInYear(currentYear, b1) == AgeInYear(currentYear, b2)
  {
  }
}

=== FILE: buscarrequest.dfy ===
/** The request-field validation of the `/buscar` route of the first server
    variant. Its list of allowed fields leaves out the two required ones, so
    no request body gets past it. */
module BuscarRequest {
  import opened Results
  import opened JsText
  import AgeBuckets
  import opened JsArray

  /** One entry of the parsed request body. */
  datatype Field = Field(name: string, value: string)

  /** What the route would hand to its query. */
  datatype SearchTerms = SearchTerms(
    nome: string,
    idade: string,
    responsavel: Option<string>,
    raca: Option<string>,
    deficiencia: Option<string>,
    sexo: Option<string>)

  datatype BuscarError = MissingRequired | InvalidIdade | InvalidFields(names: seq<string>)

  /** The field names the third check accepts, as the route lists them. */
  const OptionalFields: seq<string> := ["responsavel_buscar", "raca_buscar", "deficiencia_buscar", "sexo_buscar"]

  /** Every field the search form sends: the list the third check evidently
      meant, with the two required fields added. */
  const SearchFields: seq<string> := ["nome_buscar", "idade"] + OptionalFields

  /** `req.body[name]`. */
  function Lookup(body: seq<Field>, name: string): (r: Option<string>)
    ensures r.Some? ==> exists i | 0 <= i < |body| :: body[i] == Field(name, r.value)
    ensures r.None? ==> forall i | 0 <= i < |body| :: body[i].name != name
  {
    if |body| == 0 then None
    else if body[0].name == name then Some(body[0].value)
    else Lookup(body[1..], name)
  }

  /** `Object.keys(req.body)`. */
  function Names(body: seq<Field>): (r: seq<string>)
    ensures |r| == |body|
    ensures forall i | 0 <= i < |body| :: r[i] == body[i].name
  {
    seq(|body|, i requires 0 <= i < |body| => body[i].name)
  }

  /** `f => !allowed.includes(f)` */
  function Disallowed(allowed: seq<string>): string -> bool {
    n => n !in allowed
  }

  /** `Object.keys(req.body).filter(f => !validOptionalFields.includes(f))`:
      the names outside the allowed list, in body order, each as often as
      it occurs. */
  function InvalidNames(names: seq<string>, allowed: seq<string>): (r: seq<string>)
    ensures |r| <= |names|
    ensures SubsequenceOf(r, names)
    ensures forall n :: n in r <==> n in names && n !in allowed
    ensures forall n :: multiset(r)[n] == if n in allowed then 0 else multiset(names)[n]
  {
    Select(Disallowed(allowed), names)
  }

  /** The three checks of the route, in order, with the list of allowed
      field names as a parameter. */
  function Check(body: seq<Field>, allowed: seq<string>): (r: Result<SearchTerms, BuscarError>)
    ensures r == Failure(MissingRequired)
      <==> !(Truthy(Lookup(body, "idade")) && Truthy(Lookup(body, "nome_buscar")))
    ensures r == Failure(InvalidIdade)
      <==> Truthy(Lookup(body, "idade")) && Truthy(Lookup(body, "nome_buscar"))
           && Lookup(body, "idade").value !in AgeBuckets.BucketKeys
    ensures r.Failure? && r.error.InvalidFields? ==>
      && |r.error.names| > 0
      && forall n :: n in r.error.names <==> n in Names(body) && n !in allowed
    ensures r.Success? <==>
      && Truthy(Lookup(body, "idade")) && Truthy(Lookup(body, "nome_buscar"))
      && Lookup(body, "idade").value in AgeBuckets.BucketKeys
      && forall i | 0 <= i < |body| :: body[i].name in allowed
    ensures r.Success? ==> r.value.nome == Lookup(body, "nome_buscar").value && r.value.idade == Lookup(body, "idade").value
  {
    var idade := Lookup(body, "idade");
    var nome := Lookup(body, "nome_buscar");
    if !Truthy(idade) || !Truthy(nome) then Failure(MissingRequired)
    else if idade.value !in AgeBuckets.BucketKeys then Failure(InvalidIdade)
    else
      var invalid := InvalidNames(Names(body), allowed);
      assert |invalid| == 0 ==> forall i | 0 <= i < |body| :: body[i].name in allowed by {
        if |invalid| == 0 {
          forall i | 0 <= i < |body| ensures body[i].name in allowed {
            assert Names(body)[i] == body[i].name;
          }
        }
      }
      assert |invalid| > 0 ==> exists i | 0 <= i < |body| :: body[i].name !in allowed by {
        if |invalid| > 0 {
          assert invalid[0] in Names(body);
        }
      }
      if |invalid| > 0 then Failure(InvalidFields(invalid))
      else Success(SearchTerms(nome.value, idade.value,
                               Lookup(body, "responsavel_buscar"), Lookup(body, "raca_buscar"),
                               Lookup(body, "deficiencia_buscar"), Lookup(body, "sexo_buscar")))
  }

  /** The route as written. */
  function Validate(body: seq<Field>): Result<SearchTerms, BuscarError> {
    Check(body, OptionalFields)
  }

  /** The route with the allowed list it evidently meant. */
  function ValidateFixed(body: seq<Field>): Result<SearchTerms, BuscarError> {
    Check(body, SearchFields)
  }

  /** No request body passes: one that gets past the first two checks
      carries both `idade` and `nome_buscar`, and the third check rejects
      both names. */
  lemma NoBodyPasses(body: seq<Field>)
    ensures Validate(body).Failure?
    ensures Validate(body).Failure? && Validate(body).error.InvalidFields? ==>
      "idade" in Validate(body).error.names && "nome_buscar" in Validate(body).error.names
  {
    var idade := Lookup(body, "idade");
    var nome := Lookup(body, "nome_buscar");
    if Truthy(idade) && Truthy(nome) {
      var i :| 0 <= i < |body| && body[i] == Field("idade", idade.value);
      var j :| 0 <= j < |body| && body[j] == Field("nome_buscar", nome.value);
      assert Names(body)[i] == "idade" && Names(body)[j] == "nome_buscar";
      assert "idade" !in OptionalFields && "nome_buscar" !in OptionalFields;
      var invalid := InvalidNames(Names(body), OptionalFields);
      assert "idade" in invalid && "nome_buscar" in invalid;
    }
  }

  /** Past the first two checks, the third reports the disallowed names. */
  lemma ThirdCheckReports(body: seq<Field>, allowed: seq<string>)
    requires Truthy(Lookup(body, "idade")) && Truthy(Lookup(body, "nome_buscar"))
    requires Lookup(body, "idade").value in AgeBuckets.BucketKeys
    requires |InvalidNames(Names(body), allowed)| > 0
    ensures Check(body, allowed) == Failure(InvalidFields(InvalidNames(Names(body), allowed)))
  {
  }

  lemma BothRequiredDisallowed()
    ensures InvalidNames(["nome_buscar", "idade"], OptionalFields) == ["nome_buscar", "idade"]
  {
    var keep := Disallowed(OptionalFields);
    assert keep("idade") && keep("nome_buscar");
    assert ["nome_buscar", "idade"][1..] == ["idade"] && ["idade"][1..] == [];
    assert Select(keep, ["idade"]) == ["idade"];
  }

  /** A body that supplies the two required fields and a valid bucket is
      turned away with both names listed as invalid. */
  lemma RequiredFieldsAreReportedInvalid()
    ensures Validate([Field("nome_buscar", "Ana"), Field("idade", "all")])
         == Failure(InvalidFields(["nome_buscar", "idade"]))
  {
    var body := [Field("nome_buscar", "Ana"), Field("idade", "all")];
    assert Names(body) == ["nome_buscar", "idade"];
    assert Lookup(body, "idade") == Some("all");
    assert Lookup(body, "nome_buscar") == Some("Ana");
    assert "all" in AgeBuckets.BucketKeys;
    BothRequiredDisallowed();
    ThirdCheckReports(body, OptionalFields);
  }

  /** With the two required names allowed, a body that supplies a name, a
      valid bucket and only fields of the search form is accepted. */
  lemma FixedAcceptsSearchForm(body: seq<Field>)
    requires Truthy(Lookup(body, "idade")) && Truthy(Lookup(body, "nome_buscar"))
    requires Lookup(body, "idade").value in AgeBuckets.BucketKeys
    requires forall i | 0 <= i < |body| :: body[i].name in SearchFields
    ensures ValidateFixed(body).Success?
    ensures ValidateFixed(body).value.nome == Lookup(body, "nome_buscar").value
  {
  }

  /** The request turned away by the route as written is accepted by the
      fixed list. */
  lemma FixedAcceptsRequiredFields()
    ensures ValidateFixed([Field("nome_buscar", "Ana"), Field("idade", "all")])
         == Success(SearchTerms("Ana", "all", None, None, None, None))
  {
    var body := [Field("nome_buscar", "Ana"), Field("idade", "all")];
    assert Lookup(body, "idade") == Some("all");
    assert Lookup(body, "nome_buscar") == Some("Ana");
    assert "all" in AgeBuckets.BucketKeys;
    assert body[0].name in SearchFields && body[1].name in SearchFields;
  }
}

=== FILE: editguards.dfy ===
/** The identifier guards of the `/alterar` route: the first server variant
    requires a positive `parseInt` value, the second only a non-blank text. */
module EditGuards {
  import opened Results
  import opened JsText
  import opened JsNumber

  datatype GuardError = InvalidId

  /** `parseInt(req.query.id, 10)`, rejected when `NaN` or not above zero. */
  function NumericId(q: Option<string>): (r: Result<int, GuardError>)
    ensures r.Success? ==> r.value > 0 && ParseInt10(ToText(q)) == Some(r.value)
    ensures r.Failure? ==> ParseInt10(ToText(q)).None? || ParseInt10(ToText(q)).value <= 0
  {
    match ParseInt10(ToText(q))
    case None => Failure(InvalidId)
    case Some(id) => if id <= 0 then Failure(InvalidId) else Success(id)
  }

  /** `!id || id.trim() === ''`; the id passed on is the raw text. */
  function RawId(q: Option<string>): (r: Result<string, GuardError>)
    ensures r.Success? <==> q.Some? && exists i | 0 <= i < |q.value| :: !IsJsWhitespace(q.value[i])
    ensures r.Success? ==> r.value == q.value
  {
    TrimEmptyIffBlank(q.GetOr(""));
    if !Truthy(q) || Trim(q.value) == "" then Failure(InvalidId) else Success(q.value)
  }

  /** A positive decimal number, optionally surrounded by leading whitespace
      and trailing text that does not start with a digit, is accepted as
      that number. */
  lemma NumericIdAcceptsDecimal(lead: string, n: nat, tail: string)
    requires n > 0 && AllWhitespace(lead)
    requires |tail| > 0 ==> !IsDigit(tail[0])
    ensures NumericId(Some(lead + Show(n) + tail)) == Success(n)
  {
    ParseShow(lead, "", n, tail);
    assert lead + "" + Show(n) + tail == lead + Show(n) + tail;
  }

  /** Zero and negative numbers are rejected. */
  lemma NumericIdRejectsNonPositive(lead: string, n: nat, tail: string)
    requires AllWhitespace(lead)
    requires |tail| > 0 ==> !IsDigit(tail[0])
    ensures NumericId(Some(lead + "-" + Show(n) + tail)).Failure?
    ensures NumericId(Some(lead + Show(0) + tail)).Failure?
  {
    ParseShow(lead, "-", n, tail);
    ParseShow(lead, "", 0, tail);
    assert lead + "" + Show(0) + tail == lead + Show(0) + tail;
  }

  /** A missing id is rejected: "undefined" has no digits. */
  lemma NumericIdRejectsMissing()
    ensures NumericId(None).Failure?
  {
    assert TrimStart("undefined") == "undefined";
  }

  /** Whatever the first variant accepts the second accepts too. */
  lemma NumericAcceptanceImpliesRaw(q: Option<string>)
    requires NumericId(q).Success?
    ensures RawId(q).Success?
  {
    if q.None? {
      NumericIdRejectsMissing();
    } else {
      ParsedTextHasDigit(q.value);
    }
  }

  /** The converse fails: the second variant passes a non-numeric id on. */
  lemma RawAcceptsNonNumeric()
    ensures RawId(Some("abc")) == Success("abc")
    ensures NumericId(Some("abc")).Failure?
  {
    assert !IsJsWhitespace("abc"[0]);
    assert TrimStart("abc") == "abc";
  }
}

=== FILE: intake.dfy ===
/** The intake form of the `/criar` route: six fields checked in a fixed
    order, the first failing check deciding the 400 response. */
module Intake {
  import opened Results
  import opened JsText

  /** The request body as the route reads it; an absent field is `None`. */
  datatype Form = Form(
    nome: Option<string>,
    telefone: Option<string>,
    email: Option<string>,
    dataNascimento: Option<string>,
    rg: Option<string>,
    cpf: Option<string>)

  /** The row handed to the insert once every check has passed. */
  datatype NewAtendido = NewAtendido(
    nome: string,
    telefone: string,
    email: string,
    dataNascimento: string,
    rg: string,
    cpf: string)

  /** One constructor per 400 response of the route, in checking order. */
  datatype IntakeError = MissingField | BadPhone | BadEmail | BadBirthDate | BadRg | BadCpf

  /** Position of each check in the chain. */
  function Rank(e: IntakeError): nat {
    match e
    case MissingField => 0
    case BadPhone => 1
    case BadEmail => 2
    case BadBirthDate => 3
    case BadRg => 4
    case BadCpf => 5
  }

  /** The text sent back with status 400 for each rejection. */
  function Message(e: IntakeError): string {
    match e
    case MissingField => "Todos os campos são obrigatórios."
    case BadPhone => "Número de telefone inválido."
    case BadEmail => "Endereço de e-mail inválido."
    case BadBirthDate => "Data de nascimento inválida. Use o formato AAAA-MM-DD."
    case BadRg => "RG inválido."
    case BadCpf => "CPF inválido."
  }

  // ---------------------------------------------------------------------
  // Field shapes, as the route tests them position by position

  /** `/^\(\d{2}\) \d{5}-\d{4}$/` */
  predicate PhoneShape(s: string) {
    && |s| == 15
    && s[0] == '(' && IsDigit(s[1]) && IsDigit(s[2]) && s[3] == ')' && s[4] == ' '
    && IsDigit(s[5]) && IsDigit(s[6]) && IsDigit(s[7]) && IsDigit(s[8]) && IsDigit(s[9])
    && s[10] == '-'
    && IsDigit(s[11]) && IsDigit(s[12]) && IsDigit(s[13]) && IsDigit(s[14])
  }

  /** `/^\d{4}-\d{2}-\d{2}$/` */
  predicate DateShape(s: string) {
    && |s| == 10
    && IsDigit(s[0]) && IsDigit(s[1]) && IsDigit(s[2]) && IsDigit(s[3])
    && s[4] == '-' && IsDigit(s[5]) && IsDigit(s[6])
    && s[7] == '-' && IsDigit(s[8]) && IsDigit(s[9])
  }

  /** `/^[0-9]{7,}$/` */
  predicate RgShape(s: string) {
    |s| >= 7 && AllDigits(s)
  }

  /** A character of the class `[^\s@]`. */
  predicate EmailChar(c: char) {
    !IsJsWhitespace(c) && c != '@'
  }

  predicate AllEmailChars(s: string) {
    forall i | 0 <= i < |s| :: EmailChar(s[i])
  }

  /** Index of the first `@`, or `|s|` when there is none. */
  function IndexOfAt(s: string): (k: nat)
    ensures k <= |s|
    ensures k < |s| ==> s[k] == '@'
    ensures forall i | 0 <= i < k :: s[i] != '@'
  {
    if |s| == 0 || s[0] == '@' then 0 else 1 + IndexOfAt(s[1..])
  }

  /** `/^[^\s@]+@[^\s@]+\.[^\s@]+$/`, decided by splitting at the first `@`:
      a non-empty local part, then a domain free of whitespace and `@`
      holding a `.` that is neither its first nor its last character. */
  predicate EmailShape(s: string) {
    var k := IndexOfAt(s);
    && 0 < k < |s|
    && AllEmailChars(s[..k])
    && var d := s[k + 1..];
       && |d| >= 3
       && AllEmailChars(d)
       && '.' in d[1..|d| - 1]
  }

  // ---------------------------------------------------------------------
  // The same shapes written as the regular expressions read: literals and
  // character-class runs put one after another

  predicate DigitRun(s: string, n: nat) {
    |s| == n && AllDigits(s)
  }

  function PhoneOf(area: string, first: string, last: string): string {
    "(" + area + ") " + first + "-" + last
  }

  ghost predicate PhonePattern(s: string) {
    exists area, first, last ::
      DigitRun(area, 2) && DigitRun(first, 5) && DigitRun(last, 4) && s == PhoneOf(area, first, last)
  }

  function DateOf(y: string, m: string, d: string): string {
    y + "-" + m + "-" + d
  }

  ghost predicate DatePattern(s: string) {
    exists y, m, d :: DigitRun(y, 4) && DigitRun(m, 2) && DigitRun(d, 2) && s == DateOf(y, m, d)
  }

  /** One or more characters of `[^\s@]`. */
  predicate EmailWord(s: string) {
    |s| > 0 && AllEmailChars(s)
  }

  function EmailOf(local: string, host: string, top: string): string {
    local + "@" + host + "." + top
  }

  ghost predicate EmailPattern(s: string) {
    exists local, host, top ::
      EmailWord(local) && EmailWord(host) && EmailWord(top) && s == EmailOf(local, host, top)
  }

  /** The phone test accepts exactly `(` two digits `) ` five digits `-`
      four digits. */
  lemma PhoneShapeIffPattern(s: string)
    ensures PhoneShape(s) <==> PhonePattern(s)
  {
    if PhoneShape(s) {
      var area, first, last := s[1..3], s[5..10], s[11..15];
      assert DigitRun(area, 2) && DigitRun(first, 5) && DigitRun(last, 4);
      assert s == PhoneOf(area, first, last);
    }
    if PhonePattern(s) {
      var area, first, last :|
        DigitRun(area, 2) && DigitRun(first, 5) && DigitRun(last, 4) && s == PhoneOf(area, first, last);
      assert s[1] == area[0] && s[2] == area[1];
      assert s[5] == first[0] && s[6] == first[1] && s[7] == first[2] && s[8] == first[3] && s[9] == first[4];
      assert s[11] == last[0] && s[12] == last[1] && s[13] == last[2] && s[14] == last[3];
    }
  }

  /** The birth-date test accepts exactly four digits `-` two digits `-`
      two digits. */
  lemma DateShapeIffPattern(s: string)
    ensures DateShape(s) <==> DatePattern(s)
  {
    if DateShape(s) {
      var y, m, d := s[..4], s[5..7], s[8..];
      assert DigitRun(y, 4) && DigitRun(m, 2) && DigitRun(d, 2);
      assert s == DateOf(y, m, d);
    }
    if DatePattern(s) {
      var y, m, d :| DigitRun(y, 4) && DigitRun(m, 2) && DigitRun(d, 2) && s == DateOf(y, m, d);
      assert s[0] == y[0] && s[1] == y[1] && s[2] == y[2] && s[3] == y[3];
      assert s[5] == m[0] && s[6] == m[1] && s[8] == d[0] && s[9] == d[1];
    }
  }

  /** The date test looks at shape only: month 99 and day 99 pass. */
  lemma DateShapeIgnoresCalendar()
    ensures DateShape("2023-99-99")
  {
  }

  /** The e-mail test accepts exactly a non-empty local part, one `@`, and a
      domain made of two non-empty parts around a `.`, with no whitespace
      and no other `@` anywhere. */
  lemma EmailShapeIffPattern(s: string)
    ensures EmailShape(s) <==> EmailPattern(s)
  {
    if EmailShape(s) {
      EmailShapeGivesPattern(s);
    }
    if EmailPattern(s) {
      var local, host, top :|
        EmailWord(local) && EmailWord(host) && EmailWord(top) && s == EmailOf(local, host, top);
      EmailPatternGivesShape(local, host, top);
    }
  }

  lemma EmailShapeGivesPattern(s: string)
    requires EmailShape(s)
    ensures EmailPattern(s)
  {
    var k := IndexOfAt(s);
    var d := s[k + 1..];
    var j' :| 0 <= j' < |d[1..|d| - 1]| && d[1..|d| - 1][j'] == '.';
    var j := j' + 1;
    var local, host, top := s[..k], d[..j], d[j + 1..];
    assert AllEmailChars(host) by {
      forall i | 0 <= i < |host| ensures EmailChar(host[i]) {
        assert host[i] == d[i];
      }
    }
    assert AllEmailChars(top) by {
      forall i | 0 <= i < |top| ensures EmailChar(top[i]) {
        assert top[i] == d[j + 1 + i];
      }
    }
    assert d == host + "." + top;
    assert s == s[..k] + "@" + d;
    assert s == EmailOf(local, host, top);
  }

  lemma EmailPatternGivesShape(local: string, host: string, top: string)
    requires EmailWord(local) && EmailWord(host) && EmailWord(top)
    ensures EmailShape(EmailOf(local, host, top))
  {
    var s := EmailOf(local, host, top);
    var d := host + "." + top;
    assert s == local + "@" + d;
    assert s[|local|] == '@';
    forall i | 0 <= i < |local|
      ensures s[i] != '@'
    {
      assert s[i] == local[i];
    }
    FirstAtIs(s, |local|);
    assert s[..|local|] == local;
    assert s[|local| + 1..] == d;
    assert AllEmailChars(d) by {
      forall i | 0 <= i < |d| ensures EmailChar(d[i]) {
        if i < |host| {
          assert d[i] == host[i];
        } else if i > |host| {
          assert d[i] == top[i - |host| - 1];
        }
      }
    }
    assert d[1..|d| - 1][|host| - 1] == '.';
  }

  lemma FirstAtIs(s: string, k: nat)
    requires k < |s| && s[k] == '@'
    requires forall i | 0 <= i < k :: s[i] != '@'
    ensures IndexOfAt(s) == k
  {
  }

  // ---------------------------------------------------------------------
  // The validation chain

  function Text(f: Option<string>): string {
    f.GetOr("")
  }

  predicate AllPresent(form: Form) {
    && Truthy(form.nome) && Truthy(form.telefone) && Truthy(form.email)
    && Truthy(form.dataNascimento) && Truthy(form.rg) && Truthy(form.cpf)
  }

  /** Whether the check that raises `e` lets `form` through, on its own. */
  predicate Passes(form: Form, validCpf: string -> bool, e: IntakeError) {
    match e
    case MissingField => AllPresent(form)
    case BadPhone => PhoneShape(Text(form.telefone))
    case BadEmail => EmailShape(Text(form.email))
    case BadBirthDate => DateShape(Text(form.dataNascimento))
    case BadRg => RgShape(Text(form.rg))
    case BadCpf => validCpf(Text(form.cpf))
  }

  /** The `/criar` validation chain. The CPF check is the route's
      `validateCPF`, which is not part of this model and is passed in. */
  function Validate(form: Form, validCpf: string -> bool): (r: Result<NewAtendido, IntakeError>)
    ensures r.Failure? ==>
      && !Passes(form, validCpf, r.error)
      && forall e :: Rank(e) < Rank(r.error) ==> Passes(form, validCpf, e)
    ensures r.Success? <==> forall e :: Passes(form, validCpf, e)
    ensures r.Success? ==>
      r.value == NewAtendido(Text(form.nome), Text(form.telefone), Text(form.email),
                             Text(form.dataNascimento), Text(form.rg), Text(form.cpf))
  {
    if !AllPresent(form) then Failure(MissingField)
    else if !PhoneShape(form.telefone.value) then Failure(BadPhone)
    else if !EmailShape(form.email.value) then Failure(BadEmail)
    else if !DateShape(form.dataNascimento.value) then Failure(BadBirthDate)
    else if !RgShape(form.rg.value) then Failure(BadRg)
    else if !validCpf(form.cpf.value) then Failure(BadCpf)
    else Success(NewAtendido(form.nome.value, form.telefone.value, form.email.value,
                             form.dataNascimento.value, form.rg.value, form.cpf.value))
  }

  /** The insert is reached only with a phone, e-mail and birth date that
      match the route's regular expressions and an RG of seven or more
      digits. */
  lemma AcceptedFieldsMatchPatterns(form: Form, validCpf: string -> bool)
    requires Validate(form, validCpf).Success?
    ensures PhonePattern(Text(form.telefone))
    ensures EmailPattern(Text(form.email))
    ensures DatePattern(Text(form.dataNascimento))
    ensures |Text(form.rg)| >= 7 && AllDigits(Text(form.rg))
    ensures validCpf(Text(form.cpf))
  {
    assert Passes(form, validCpf, BadPhone) && Passes(form, validCpf, BadEmail);
    assert Passes(form, validCpf, BadBirthDate) && Passes(form, validCpf, BadRg);
    assert Passes(form, validCpf, BadCpf);
    PhoneShapeIffPattern(Text(form.telefone));
    EmailShapeIffPattern(Text(form.email));
    DateShapeIffPattern(Text(form.dataNascimento));
  }

  // ---------------------------------------------------------------------
  // The route's response

  /** What `/criar` answers: a 400 with its message, a 500, or the insert
      of the new row (whose own outcome is the database's). */
  datatype Response = BadRequest(message: string) | ServerError(message: string) | Insert(row: NewAtendido)

  const InsertFailedMessage: string := "Erro ao inserir dados."

  /** Stands in for a CPF check that is never reached. */
  function NoCpfCheck(cpf: string): bool {
    true
  }

  /** The route as it is written. `validateCPF` is neither defined nor
      imported in the file, so calling it raises a ReferenceError, which the
      surrounding `catch` turns into a 500: every form that gets past the RG
      check ends there, and the insert is never reached. */
  function RespondAsWritten(form: Form): (r: Response)
    ensures !r.Insert?
    ensures r.ServerError? <==> forall e | e != BadCpf :: Passes(form, NoCpfCheck, e)
    ensures r.BadRequest? ==> exists e | e != BadCpf :: && !Passes(form, NoCpfCheck, e)
                                                         && (forall e' :: Rank(e') < Rank(e) ==> Passes(form, NoCpfCheck, e'))
                                                         && r.message == Message(e)
  {
    match Validate(form, NoCpfCheck)
    case Failure(e) => BadRequest(Message(e))
    case Success(_) => ServerError(InsertFailedMessage)
  }

  /** The route with the CPF check it meant to call, passed in as `validCpf`. */
  function Respond(form: Form, validCpf: string -> bool): (r: Response)
    ensures r.Insert? <==> forall e :: Passes(form, validCpf, e)
    ensures r.Insert? ==> r.row == NewAtendido(Text(form.nome), Text(form.telefone), Text(form.email),
                                                Text(form.dataNascimento), Text(form.rg), Text(form.cpf))
    ensures r.BadRequest? <==> exists e :: !Passes(form, validCpf, e)
    ensures r.BadRequest? ==> exists e :: && !Passes(form, validCpf, e)
                                          && (forall e' :: Rank(e') < Rank(e) ==> Passes(form, validCpf, e'))
                                          && r.message == Message(e)
    ensures !r.ServerError?
  {
    match Validate(form, validCpf)
    case Failure(e) => BadRequest(Message(e))
    case Success(row) => Insert(row)
  }

  /** Every form the intended route would insert gets a 500 from the route
      as written; every other form gets the same 400 from both, unless the
      CPF check is what rejects it. */
  lemma {:induction false} AsWrittenNeverInserts(form: Form, validCpf: string -> bool)
    ensures Respond(form, validCpf).Insert? ==> RespondAsWritten(form) == ServerError(InsertFailedMessage)
    ensures Respond(form, validCpf).BadRequest? && Respond(form, validCpf).message != Message(BadCpf)
        ==> RespondAsWritten(form) == Respond(form, validCpf)
  {
    var r := Validate(form, validCpf);
    var w := Validate(form, NoCpfCheck);
    if r.Success? {
      forall e | e != BadCpf ensures Passes(form, NoCpfCheck, e) {
        assert Passes(form, validCpf, e);
      }
      assert w.Success?;
    } else if r.error != BadCpf {
      assert w == r;
    }
  }

  lemma LettersAreEmailWord(s: string)
    requires |s| > 0
    requires forall i | 0 <= i < |s| :: 'a' <= s[i] <= 'z'
    ensures EmailWord(s)
  {
    forall i | 0 <= i < |s|
      ensures EmailChar(s[i])
    {
      assert 'a' <= s[i] <= 'z';
    }
  }

  lemma ExampleEmail()
    ensures EmailShape("ana@exemplo.com")
  {
    assert "ana@exemplo.com" == EmailOf("ana", "exemplo", "com");
    LettersAreEmailWord("ana");
    LettersAreEmailWord("exemplo");
    LettersAreEmailWord("com");
    EmailPatternGivesShape("ana", "exemplo", "com");
  }

  lemma ExampleShapes()
    ensures PhoneShape("(11) 91234-5678")
    ensures DateShape("2000-01-31")
    ensures RgShape("1234567")
  {
  }

  /** A well-formed intake form: the route as written answers 500 where it
      meant to insert the row, for any CPF check that accepts its CPF. */
  lemma WellFormedFormGets500(validCpf: string -> bool)
    requires validCpf("52998224725")
    ensures var form := Form(Some("Ana"), Some("(11) 91234-5678"), Some("ana@exemplo.com"),
                             Some("2000-01-31"), Some("1234567"), Some("52998224725"));
      && RespondAsWritten(form) == ServerError(InsertFailedMessage)
      && Respond(form, validCpf).Insert?
  {
    var form := Form(Some("Ana"), Some("(11) 91234-5678"), Some("ana@exemplo.com"),
                     Some("2000-01-31"), Some("1234567"), Some("52998224725"));
    ExampleEmail();
    ExampleShapes();
    assert AllPresent(form);
    assert Validate(form, validCpf).Success?;
    AsWrittenNeverInserts(form, validCpf);
  }
}

=== FILE: jsarray.dfy ===
/** The part of `Array.prototype` the route handlers rely on: `filter`,
    and the order-preserving subsequence relation that describes its
    result. */
module JsArray {
  /** `a` is `b` with some elements left out, the rest in the same order. */
  ghost predicate SubsequenceOf<T>(a: seq<T>, b: seq<T>)
    decreases |b|
  {
    |a| == 0 || (|b| > 0 && ((a[0] == b[0] && SubsequenceOf(a[1..], b[1..])) || SubsequenceOf(a, b[1..])))
  }

  /** `Array.prototype.filter` with a callback that always returns: the
      elements the callback keeps, in their original order, each as often as
      in the input. */
  function Select<T(!new)>(keep: T -> bool, xs: seq<T>): (r: seq<T>)
    ensures |r| <= |xs|
    ensures SubsequenceOf(r, xs)
    ensures forall x :: x in r <==> x in xs && keep(x)
    ensures forall x :: multiset(r)[x] == if keep(x) then multiset(xs)[x] else 0
  {
    if |xs| == 0 then []
    else
      var rest := Select(keep, xs[1..]);
      assert xs == [xs[0]] + xs[1..];
      assert multiset(xs) == multiset{xs[0]} + multiset(xs[1..]);
      if keep(xs[0]) then
        assert ([xs[0]] + rest)[1..] == rest;
        assert multiset([xs[0]] + rest) == multiset{xs[0]} + multiset(rest);
        [xs[0]] + rest
      else rest
  }

  lemma {:induction false} SelectAppend<T(!new)>(keep: T -> bool, a: seq<T>, b: seq<T>)
    ensures Select(keep, a + b) == Select(keep, a) + Select(keep, b)
  {
    if |a| > 0 {
      assert (a + b)[1..] == a[1..] + b;
      SelectAppend(keep, a[1..], b);
    } else {
      assert a + b == b;
    }
  }

  lemma SubsequenceOfCons<T>(a: seq<T>, x: T, b: seq<T>)
    requires SubsequenceOf(a, b)
    ensures SubsequenceOf(a, [x] + b)
  {
    assert ([x] + b)[1..] == b;
  }

  lemma {:induction false} SelectMonotone<T(!new)>(k1: T -> bool, k2: T -> bool, xs: seq<T>)
    requires forall x :: k1(x) ==> k2(x)
    ensures SubsequenceOf(Select(k1, xs), Select(k2, xs))
  {
    if |xs| > 0 {
      SelectMonotone(k1, k2, xs[1..]);
      var a := Select(k1, xs[1..]);
      var b := Select(k2, xs[1..]);
      if k1(xs[0]) {
        assert ([xs[0]] + a)[1..] == a;
        assert ([xs[0]] + b)[1..] == b;
      } else if k2(xs[0]) {
        SubsequenceOfCons(a, xs[0], b);
      }
    }
  }
}

=== FILE: jsnumber.dfy ===
/** `parseInt(text, 10)` from ECMAScript, with `NaN` as `None` and the
    number as an unbounded integer. */
module JsNumber {
  import opened Results
  import opened JsText

  function DigitValue(c: char): nat
    requires IsDigit(c)
  {
    c as int - '0' as int
  }

  /** The value of a run of decimal digits, read most significant first. */
  function DecimalValue(ds: string): nat
    requires AllDigits(ds)
  {
    if |ds| == 0 then 0
    else DecimalValue(ds[..|ds| - 1]) * 10 + DigitValue(ds[|ds| - 1])
  }

  /** Length of the longest prefix of `s` made of decimal digits. */
  function DigitPrefixLength(s: string): (k: nat)
    ensures k <= |s|
    ensures AllDigits(s[..k])
    ensures k < |s| ==> !IsDigit(s[k])
  {
    if |s| > 0 && IsDigit(s[0]) then 1 + DigitPrefixLength(s[1..]) else 0
  }

  /** `parseInt(s, 10)`: skip leading whitespace, take one optional sign,
      then read the longest run of digits; no digits at all gives `NaN`. */
  function ParseInt10(s: string): Option<int>
  {
    var t := TrimStart(s);
    var sign := if |t| > 0 && t[0] == '-' then -1 else 1;
    var u := if |t| > 0 && (t[0] == '-' || t[0] == '+') then t[1..] else t;
    var k := DigitPrefixLength(u);
    if k == 0 then None else Some(sign * DecimalValue(u[..k]))
  }

  /** Decimal notation of a natural number, without leading zeros. */
  function Show(n: nat): (r: string)
    ensures |r| > 0 && AllDigits(r)
    ensures n > 0 ==> r[0] != '0'
  {
    if n < 10 then [('0' as int + n) as char]
    else Show(n / 10) + [('0' as int + n % 10) as char]
  }

  /** Reading back the decimal notation gives the number. */
  lemma {:induction false} DecimalShow(n: nat)
    ensures DecimalValue(Show(n)) == n
  {
    if n >= 10 {
      var s := Show(n);
      assert s[..|s| - 1] == Show(n / 10);
      DecimalShow(n / 10);
    }
  }

  lemma {:induction false} DigitPrefixOfDigits(ds: string, tail: string)
    requires AllDigits(ds)
    requires |tail| > 0 ==> !IsDigit(tail[0])
    ensures DigitPrefixLength(ds + tail) == |ds|
    decreases |ds|
  {
    if |ds| == 0 {
      assert ds + tail == tail;
    } else {
      assert (ds + tail)[1..] == ds[1..] + tail;
      DigitPrefixOfDigits(ds[1..], tail);
    }
  }

  /** Round trip: whitespace, an optional sign, the decimal notation of `n`
      and any text that does not start with a digit parse back to the signed
      value of `n`. */
  lemma ParseShow(lead: string, sign: string, n: nat, tail: string)
    requires AllWhitespace(lead)
    requires sign == "" || sign == "+" || sign == "-"
    requires |tail| > 0 ==> !IsDigit(tail[0])
    ensures ParseInt10(lead + sign + Show(n) + tail) == Some((if sign == "-" then -1 else 1) * n)
  {
    var body := sign + Show(n) + tail;
    assert lead + sign + Show(n) + tail == lead + body;
    assert body[0] == '-' || body[0] == '+' || IsDigit(body[0]);
    TrimStartSkipsBlank(lead, body);
    var u := Show(n) + tail;
    if sign != "" {
      assert body[1..] == u;
    } else {
      assert body == u;
    }
    DigitPrefixOfDigits(Show(n), tail);
    assert u[..|Show(n)|] == Show(n);
    DecimalShow(n);
  }

  /** A parsed number needs at least one digit in the text. */
  lemma ParsedTextHasDigit(s: string)
    requires ParseInt10(s).Some?
    ensures exists i | 0 <= i < |s| :: IsDigit(s[i])
  {
    var t := TrimStart(s);
    TrimStartSplits(s);
    var u := if |t| > 0 && (t[0] == '-' || t[0] == '+') then t[1..] else t;
    var k := DigitPrefixLength(u);
    assert IsDigit(u[..k][0]);
    var off := |s| - |t| + (if |t| > 0 && (t[0] == '-' || t[0] == '+') then 1 else 0);
    assert s[off] == u[0];
  }
}

=== FILE: jstext.dfy ===
/** The small part of ECMAScript string semantics the route handlers rely on:
    the `\s` character class, truthiness of a form value, `toLowerCase`,
    `String.prototype.includes` and `String.prototype.trim`. */
module JsText {
  import opened Results

  /** WhiteSpace and LineTerminator code points of ECMAScript: exactly what
      the regular-expression class `\s` matches and what `trim` and
      `parseInt` skip. */
  predicate IsJsWhitespace(c: char) {
    || c == '\t' || c == '\n' || c == '\U{000B}' || c == '\U{000C}' || c == '\r'
    || c == ' ' || c == '\U{00A0}' || c == '\U{1680}'
    || ('\U{2000}' <= c <= '\U{200A}')
    || c == '\U{2028}' || c == '\U{2029}' || c == '\U{202F}' || c == '\U{205F}'
    || c == '\U{3000}' || c == '\U{FEFF}'
  }

  /** `String(v)` for a request value that is a string or absent: an absent
      value is `undefined`, whose string form is "undefined". This is the
      text `parseInt` reads and the property key a lookup uses. */
  function ToText(v: Option<string>): string {
    v.GetOr("undefined")
  }

  /** What `\d` and `[0-9]` match: ASCII decimal digits only. */
  predicate IsDigit(c: char) {
    '0' <= c <= '9'
  }

  predicate AllDigits(s: string) {
    forall i | 0 <= i < |s| :: IsDigit(s[i])
  }

  predicate AllWhitespace(s: string) {
    forall i | 0 <= i < |s| :: IsJsWhitespace(s[i])
  }

  /** JavaScript truthiness of a request field: an absent field is
      `undefined` and the empty string is falsy; every other string is truthy. */
  predicate Truthy(f: Option<string>) {
    f.Some? && |f.value| > 0
  }

  /** `toLowerCase` on one code point, for ASCII letters and the Latin-1
      capitals U+00C0..U+00DE (U+00D7, the multiplication sign, excepted). */
  function LowerChar(c: char): char {
    if 'A' <= c <= 'Z' || ('\U{00C0}' <= c <= '\U{00DE}' && c != '\U{00D7}')
    then (c as int + 32) as char
    else c
  }

  function Lower(s: string): (r: string)
    ensures |r| == |s|
    ensures forall i | 0 <= i < |s| :: r[i] == LowerChar(s[i])
  {
    seq(|s|, i requires 0 <= i < |s| => LowerChar(s[i]))
  }

  /** Lower-casing twice is lower-casing once, so comparing `x.toLowerCase()`
      with `y.toLowerCase()` does not depend on the case of either side. */
  lemma LowerIdempotent(s: string)
    ensures Lower(Lower(s)) == Lower(s)
  {
    forall i | 0 <= i < |s|
      ensures Lower(Lower(s))[i] == Lower(s)[i]
    {
      var c := s[i];
      assert Lower(Lower(s))[i] == LowerChar(LowerChar(c));
    }
  }

  /** `needle` occurs in `hay` starting at index `i`. */
  ghost predicate OccursAt(hay: string, needle: string, i: int) {
    0 <= i && i + |needle| <= |hay| && hay[i..i + |needle|] == needle
  }

  /** `String.prototype.includes`: tries each start position in turn. */
  function Includes(hay: string, needle: string): bool
    decreases |hay|
  {
    if |needle| > |hay| then false
    else if hay[..|needle|] == needle then true
    else Includes(hay[1..], needle)
  }

  /** `includes` answers yes exactly when the needle occurs somewhere. */
  lemma {:induction false} IncludesIffOccurs(hay: string, needle: string)
    ensures Includes(hay, needle) <==> exists i :: OccursAt(hay, needle, i)
    decreases |hay|
  {
    if |needle| > |hay| {
    } else if hay[..|needle|] == needle {
      assert OccursAt(hay, needle, 0);
    } else {
      IncludesIffOccurs(hay[1..], needle);
      if Includes(hay[1..], needle) {
        var j :| OccursAt(hay[1..], needle, j);
        assert hay[1..][j..j + |needle|] == hay[j + 1..j + 1 + |needle|];
        assert OccursAt(hay, needle, j + 1);
      } else {
        forall i | OccursAt(hay, needle, i)
          ensures false
        {
          assert i != 0;
          assert hay[1..][i - 1..i - 1 + |needle|] == hay[i..i + |needle|];
          assert OccursAt(hay[1..], needle, i - 1);
        }
      }
    }
  }

  function TrimStart(s: string): string
  {
    if |s| > 0 && IsJsWhitespace(s[0]) then TrimStart(s[1..]) else s
  }

  function TrimEnd(s: string): string
  {
    if |s| > 0 && IsJsWhitespace(s[|s| - 1]) then TrimEnd(s[..|s| - 1]) else s
  }

  /** `String.prototype.trim`. */
  function Trim(s: string): string {
    TrimEnd(TrimStart(s))
  }

  /** Skipping leading whitespace drops exactly a blank prefix and stops at
      the first non-blank character. */
  lemma {:induction false} TrimStartSplits(s: string)
    ensures |TrimStart(s)| <= |s|
    ensures TrimStart(s) == s[|s| - |TrimStart(s)|..]
    ensures forall i | 0 <= i < |s| - |TrimStart(s)| :: IsJsWhitespace(s[i])
    ensures |TrimStart(s)| > 0 ==> !IsJsWhitespace(TrimStart(s)[0])
  {
    if |s| > 0 && IsJsWhitespace(s[0]) {
      TrimStartSplits(s[1..]);
      assert s[1..][|s[1..]| - |TrimStart(s)|..] == s[|s| - |TrimStart(s)|..];
      forall i | 0 <= i < |s| - |TrimStart(s)|
        ensures IsJsWhitespace(s[i])
      {
        if i > 0 {
          assert s[i] == s[1..][i - 1];
        }
      }
    }
  }

  /** Leading whitespace in front of a string that starts with a non-blank
      character is removed, and nothing else is. */
  lemma {:induction false} TrimStartSkipsBlank(lead: string, rest: string)
    requires AllWhitespace(lead)
    requires |rest| > 0 ==> !IsJsWhitespace(rest[0])
    ensures TrimStart(lead + rest) == rest
    decreases |lead|
  {
    if |lead| == 0 {
      assert lead + rest == rest;
    } else {
      assert (lead + rest)[1..] == lead[1..] + rest;
      TrimStartSkipsBlank(lead[1..], rest);
    }
  }

  lemma {:induction false} TrimEndEmptyIffBlank(s: string)
    ensures TrimEnd(s) == "" <==> AllWhitespace(s)
  {
    if |s| > 0 && IsJsWhitespace(s[|s| - 1]) {
      TrimEndEmptyIffBlank(s[..|s| - 1]);
      if AllWhitespace(s[..|s| - 1]) {
        assert AllWhitespace(s);
      }
    } else if |s| > 0 {
      assert !IsJsWhitespace(s[|s| - 1]);
    }
  }

  /** `s.trim() === ''` holds exactly when every character of `s` is
      whitespace (the empty string included). */
  lemma TrimEmptyIffBlank(s: string)
    ensures Trim(s) == "" <==> AllWhitespace(s)
  {
    TrimStartSplits(s);
    TrimEndEmptyIffBlank(TrimStart(s));
    if |TrimStart(s)| > 0 {
      assert !AllWhitespace(TrimStart(s));
      assert TrimStart(s)[0] == s[|s| - |TrimStart(s)|];
    }
  }
}

=== FILE: pagination.dfy ===
/** The page slice of the listing route of the second server variant:
    `peopleData.slice(offset, offset + PAGE_SIZE)` with
    `offset = (page - 1) * PAGE_SIZE`. */
module Pagination {

  const PageSize: nat := 20

  /** How `Array.prototype.slice` resolves one index argument: a negative
      index counts back from the end, and the result is clamped to
      `[0, len]`. */
  function ClampIndex(i: int, len: nat): (r: nat)
    ensures r <= len
  {
    if i < 0 then (if len + i > 0 then len + i else 0)
    else if i < len then i else len
  }

  /** `s.slice(start, end)`: the elements from the resolved start up to the
      resolved end, nothing when the end comes first. */
  function Slice<T>(s: seq<T>, start: int, end: int): (r: seq<T>)
    ensures |r| == if ClampIndex(start, |s|) < ClampIndex(end, |s|)
                   then ClampIndex(end, |s|) - ClampIndex(start, |s|) else 0
    ensures forall i | 0 <= i < |r| :: r[i] == s[ClampIndex(start, |s|) + i]
  {
    var from := ClampIndex(start, |s|);
    var to := ClampIndex(end, |s|);
    if from < to then s[from..to] else []
  }

  function Offset(page: int): int {
    (page - 1) * PageSize
  }

  /** The people shown on page `page`. */
  function Page<T>(people: seq<T>, page: int): (r: seq<T>)
    ensures |r| <= PageSize
    ensures page >= 1 ==> (|r| == 0 <==> Offset(page) >= |people|)
    ensures page >= 1 && |r| > 0 ==> Offset(page) + |r| <= |people|
    ensures page >= 1 ==> forall i | 0 <= i < |r| :: r[i] == people[Offset(page) + i]
    ensures page >= 1 && Offset(page) + PageSize <= |people| ==> |r| == PageSize
    ensures page >= 1 && Offset(page) < |people| < Offset(page) + PageSize ==> |r| == |people| - Offset(page)
  {
    Slice(people, Offset(page), Offset(page) + PageSize)
  }

  /** The first `n` pages laid end to end. */
  function FirstPages<T>(people: seq<T>, n: nat): seq<T> {
    if n == 0 then [] else FirstPages(people, n - 1) + Page(people, n)
  }

  /** Pages 1 to `n` together are exactly the first `n * PageSize` people (or
      all of them): no one is skipped or shown twice. */
  lemma {:induction false} PagesTileTheList<T>(people: seq<T>, n: nat)
    ensures FirstPages(people, n) == people[..if n * PageSize < |people| then n * PageSize else |people|]
  {
    if n > 0 {
      PagesTileTheList(people, n - 1);
      var lo := if (n - 1) * PageSize < |people| then (n - 1) * PageSize else |people|;
      var hi := if n * PageSize < |people| then n * PageSize else |people|;
      var p := Page(people, n);
      assert Offset(n) == (n - 1) * PageSize;
      if Offset(n) >= |people| {
        assert p == [];
        assert lo == hi;
      } else {
        assert p == people[lo..hi];
      }
      assert people[..lo] + people[lo..hi] == people[..hi];
    }
  }

  /** Every person appears on the page given by their position. */
  lemma PersonOnTheirPage<T>(people: seq<T>, i: nat)
    requires i < |people|
    ensures i % PageSize < |Page(people, i / PageSize + 1)|
    ensures Page(people, i / PageSize + 1)[i % PageSize] == people[i]
  {
    var page := i / PageSize + 1;
    assert Offset(page) == i - i % PageSize;
  }

  /** Page 0 is empty, and a negative page counts back from the end of the
      list, because `slice` reads negative indices from the end. */
  lemma NonPositivePages<T>(people: seq<T>, page: int)
    requires page <= 0
    ensures page == 0 ==> Page(people, page) == []
    ensures page < 0 && |people| + Offset(page) >= 0 ==>
      Page(people, page) == people[|people| + Offset(page)..|people| + Offset(page) + PageSize]
  {
  }
}

=== FILE: peoplesearch.dfy ===
/** The in-memory search of the `/buscar` route of the second server
    variant: six per-person criteria combined with `filter`. */
module PeopleSearch {
  import opened Results
  import opened JsText
  import opened Ages
  import opened AgeBuckets
  import opened JsArray

  /** The person fields the filter reads. A text field the record does not
      hold (null in the database, or missing) is `None`; `nascimento == None`
      is a birth date JavaScript cannot parse, whose year is `NaN`. */
  datatype Person = Person(
    nome: Option<string>,
    responsavel: Option<string>,
    raca: Option<string>,
    deficiencia: Option<string>,
    genero: Option<string>,
    nascimento: Option<Date>)

  /** The search form; an absent field is `None`. */
  datatype Query = Query(
    nome: Option<string>,
    idade: Option<string>,
    responsavel: Option<string>,
    raca: Option<string>,
    deficiencia: Option<string>,
    sexo: Option<string>)

  /** `!q || field.toLowerCase()...` gets past `toLowerCase`: the query
      field is empty, or the person field is a string. */
  predicate Reads(q: Option<string>, field: Option<string>) {
    !Truthy(q) || field.Some?
  }

  /** Some text criterion calls `toLowerCase` on a null or missing person
      field. The five criteria are separate statements that all run for
      every person, so any one such pair raises a TypeError. */
  predicate Throws(q: Query, p: Person) {
    !(&& Reads(q.nome, p.nome)
      && Reads(q.responsavel, p.responsavel)
      && Reads(q.raca, p.raca)
      && Reads(q.deficiencia, p.deficiencia)
      && Reads(q.sexo, p.genero))
  }

  /** `!q || field.toLowerCase().includes(q.toLowerCase())`; an absent field
      with a set query is the case `Throws` covers. */
  predicate ContainsMatch(q: Option<string>, field: Option<string>) {
    !Truthy(q) || (field.Some? && Includes(Lower(field.value), Lower(q.value)))
  }

  /** `!q || field.toLowerCase() === q.toLowerCase()` */
  predicate EqualsMatch(q: Option<string>, field: Option<string>) {
    !Truthy(q) || (field.Some? && Lower(field.value) == Lower(q.value))
  }

  /** `idadeCalculada >= idadeMin && idadeCalculada <= idadeMax`; every
      comparison with `NaN` is false, so an unparseable birth date never
      matches. */
  predicate AgeMatches(range: AgeRange, currentYear: int, p: Person) {
    match p.nascimento
    case None => false
    case Some(b) => InRange(range, AgeInYear(currentYear, b))
  }

  /** The filter callback: a person is kept when all six criteria hold. */
  predicate Keep(q: Query, currentYear: int, p: Person) {
    && ContainsMatch(q.nome, p.nome)
    && AgeMatches(RangeFor(ToText(q.idade)), currentYear, p)
    && EqualsMatch(q.responsavel, p.responsavel)
    && EqualsMatch(q.raca, p.raca)
    && ContainsMatch(q.deficiencia, p.deficiencia)
    && EqualsMatch(q.sexo, p.genero)
  }

  /** The filter callback as a function value. */
  function Criteria(q: Query, currentYear: int): Person -> bool {
    p => Keep(q, currentYear, p)
  }

  /** `peopleData.filter(...)`: the kept people, in their original order,
      each as often as in the input. */
  function Filter(q: Query, currentYear: int, people: seq<Person>): (r: seq<Person>)
    ensures |r| <= |people|
    ensures SubsequenceOf(r, people)
    ensures forall p :: p in r <==> p in people && Keep(q, currentYear, p)
    ensures forall p :: multiset(r)[p] == if Keep(q, currentYear, p) then multiset(people)[p] else 0
  {
    Select(Criteria(q, currentYear), people)
  }

  /** Why the search route fails: the bucket lookup finds an inherited
      member that cannot be destructured, or a text criterion meets a person
      field that is not a string. Both are TypeErrors, answered with 500. */
  datatype SearchError = BucketNotIterable | FieldNotString

  /** The `/buscar` handler of the second server variant as written: the
      bucket lookup of line 57, then the filter, which fails at the first
      person whose record a set text criterion cannot read. */
  function Search(q: Query, currentYear: int, people: seq<Person>): (r: Result<seq<Person>, SearchError>)
    ensures r == Failure(BucketNotIterable) <==> ToText(q.idade) in InheritedNames
    ensures r == Failure(FieldNotString)
        <==> ToText(q.idade) !in InheritedNames && exists p :: p in people && Throws(q, p)
    ensures r.Success? ==> forall p :: p in r.value <==> p in people && Keep(q, currentYear, p)
    ensures r.Success? ==> SubsequenceOf(r.value, people)
    ensures r.Success? ==> forall p :: multiset(r.value)[p] == if Keep(q, currentYear, p) then multiset(people)[p] else 0
  {
    match LookupAsWritten(ToText(q.idade))
    case Failure(_) => Failure(BucketNotIterable)
    case Success(_) =>
      if exists p :: p in people && Throws(q, p) then Failure(FieldNotString)
      else Success(Filter(q, currentYear, people))
  }

  /** A query that sets none of the five text criteria never trips over a
      missing field: outside the inherited bucket names it returns the
      filter's result. */
  lemma NoTextCriteriaNeverThrows(q: Query, currentYear: int, people: seq<Person>)
    requires !Truthy(q.nome) && !Truthy(q.responsavel) && !Truthy(q.raca)
    requires !Truthy(q.deficiencia) && !Truthy(q.sexo)
    requires ToText(q.idade) !in InheritedNames
    ensures Search(q, currentYear, people) == Success(Filter(q, currentYear, people))
  {
    AsWrittenAgreesOffPrototype(ToText(q.idade));
  }

  /** People whose records hold all five text fields never make the search
      fail, whatever the text criteria. */
  lemma CompleteRecordsNeverThrow(q: Query, currentYear: int, people: seq<Person>)
    requires forall p :: p in people ==> p.nome.Some? && p.responsavel.Some?
    requires forall p :: p in people ==> p.raca.Some? && p.deficiencia.Some? && p.genero.Some?
    requires ToText(q.idade) !in InheritedNames
    ensures Search(q, currentYear, people) == Success(Filter(q, currentYear, people))
  {
    AsWrittenAgreesOffPrototype(ToText(q.idade));
  }

  /** A record as `/criar` stores it holds no gender; searching with `sexo`
      set then fails, even when an earlier criterion already rejects the
      person. */
  lemma UnsetGenderThrows(currentYear: int, nome: string, b: Date, others: seq<Person>)
    ensures Search(Query(Some("zz" + nome), None, None, None, None, Some("Feminino")), currentYear,
                   others + [Person(Some(nome), None, None, None, None, Some(b))])
         == Failure(FieldNotString)
    ensures !ContainsMatch(Some("zz" + nome), Some(nome))
  {
    IncludesIffOccurs(Lower(nome), Lower("zz" + nome));
    var q := Query(Some("zz" + nome), None, None, None, None, Some("Feminino"));
    var p := Person(Some(nome), None, None, None, None, Some(b));
    assert Truthy(q.sexo);
    assert Throws(q, p);
    assert p in others + [p];
    assert ToText(q.idade) !in InheritedNames;
  }

  /** Filtering a concatenation filters each part. */
  lemma FilterAppend(q: Query, currentYear: int, a: seq<Person>, b: seq<Person>)
    ensures Filter(q, currentYear, a + b) == Filter(q, currentYear, a) + Filter(q, currentYear, b)
  {
    SelectAppend(Criteria(q, currentYear), a, b);
  }

  /** A query whose criteria admit at least everyone another query admits
      returns a result that contains the other result, in order. */
  lemma FilterMonotone(q1: Query, q2: Query, currentYear: int, people: seq<Person>)
    requires forall p :: Keep(q1, currentYear, p) ==> Keep(q2, currentYear, p)
    ensures SubsequenceOf(Filter(q1, currentYear, people), Filter(q2, currentYear, people))
  {
    SelectMonotone(Criteria(q1, currentYear), Criteria(q2, currentYear), people);
  }

  /** Leaving the name field empty never removes anyone from the result. */
  lemma ClearingNameWidens(q: Query, currentYear: int, people: seq<Person>)
    ensures SubsequenceOf(Filter(q, currentYear, people), Filter(q.(nome := None), currentYear, people))
  {
    FilterMonotone(q, q.(nome := None), currentYear, people);
  }

  /** With every field empty and no age bucket, the search keeps exactly the
      people with a readable birth date whose age is not negative. */
  lemma EmptyQueryKeepsReadableAges(currentYear: int, p: Person)
    ensures Keep(Query(None, None, None, None, None, None), currentYear, p)
        <==> p.nascimento.Some? && AgeInYear(currentYear, p.nascimento.value) >= 0
  {
    assert ToText(None) !in BucketKeys;
  }

  /** Both ends of the selected bucket are included. */
  lemma AgeBoundsInclusive(q: Query, currentYear: int, p: Person)
    requires q.idade == Some("10-18") && p.nascimento.Some?
    ensures AgeMatches(RangeFor(ToText(q.idade)), currentYear, p)
        <==> 10 <= AgeInYear(currentYear, p.nascimento.value) <= 18
  {
  }

  function LowerOpt(q: Option<string>): Option<string> {
    match q
    case None => None
    case Some(s) => Some(Lower(s))
  }

  /** The text criteria ignore the case of what is typed in the form. */
  lemma KeepIgnoresQueryCase(q: Query, currentYear: int, p: Person)
    ensures Keep(q.(nome := LowerOpt(q.nome), responsavel := LowerOpt(q.responsavel),
                    raca := LowerOpt(q.raca), deficiencia := LowerOpt(q.deficiencia),
                    sexo := LowerOpt(q.sexo)), currentYear, p)
        <==> Keep(q, currentYear, p)
  {
    if q.nome.Some? { LowerIdempotent(q.nome.value); }
    if q.responsavel.Some? { LowerIdempotent(q.responsavel.value); }
    if q.raca.Some? { LowerIdempotent(q.raca.value); }
    if q.deficiencia.Some? { LowerIdempotent(q.deficiencia.value); }
    if q.sexo.Some? { LowerIdempotent(q.sexo.value); }
  }

  /** The name criterion is a substring test: any part of the name matches. */
  lemma NameMatchesAnyPart(q: string, name: string, before: string, after: string)
    requires |q| > 0 && name == before + q + after
    ensures ContainsMatch(Some(q), Some(name))
  {
    var n := Lower(name);
    var lq := Lower(q);
    assert n[|before|..|before| + |q|] == lq;
    assert OccursAt(n, lq, |before|);
    IncludesIffOccurs(n, lq);
  }

  /** The responsible-person, race and gender criteria compare whole
      strings: a part of the value does not match. */
  lemma EqualsIsNotSubstring()
    ensures !EqualsMatch(Some("par"), Some("Parda"))
    ensures ContainsMatch(Some("par"), Some("Parda"))
  {
    assert Lower("par") != Lower("Parda");
    NameMatchesAnyPart("par", "par" + "da", "", "da");
    assert Lower("Parda") == Lower("par" + "da");
  }
}

=== FILE: results.dfy ===
/** Failure-carrying values shared by every validator of the model. */
module Results {

  /** A value that may be absent: a missing form field or query parameter,
      an upper age bound that is infinite, a number that did not parse. */
  datatype Option<+T> = None | Some(value: T) {
    function GetOr(default: T): T {
      match this
      case Some(v) => v
      case None => default
    }
  }

  /** Either the accepted value or the reason a request was rejected. */
  datatype Result<+R, +E> = Success(value: R) | Failure(error: E)
}
